=== FILE: README.md ===
# Plinko wagering and board layout — a Dafny model

This project models the game logic of a browser Plinko game. Balls fall through a
pyramid of pegs into scoring bins, and a balance is debited when balls are dropped and
credited when they land. Everything physical is handed to an external rigid-body engine,
and that part is not modelled. The model covers the logic that remains:

- **Multiplier table** (`Multipliers`): `calculateMultiplier(i, n) = |i - floor(n/2)| + 1`.
  The call site passes the pyramid height as `n`, as the source does.
- **Bin labels** (`Labels`): the `bin_<i>`, `ball` and `peg` tags that collisions are
  classified by. It includes the decimal rendering of the bin index and a parse-back,
  which shows that labels of different bins never coincide.
- **Board layout** (`Layout`): `createGame` as a pure function of the height and the
  canvas size. It gives the peg rows, the bins with their labels, multipliers and
  centres, and the pyramid bounds. Coordinates are over `real`.
- **Balls in flight** (`InFlight`): removing one ball after it lands (`indexOf` +
  `splice`). Also the per-step sweep of balls that fell below the pyramid, which splices
  inside `forEach` and so can skip the ball after one it removes.
- **Session** (`Session`): the state is `balance`, `betAmount`, `ballCount`, the ball
  ids in flight, the number of scheduled spawns not yet fired, and the next ball id.
  The operations are Drop, Spawn, the collision handler (one pair with `Resolve`, one
  event with `Collide`), the per-step sweep (`Tick`) and board regeneration. Each one
  returns the next session, the alerts it raises and the balance movements it makes
  (a ledger of debits and credits).
- **Game** (`Game`): a session driven by any sequence of page events. Lemmas over whole
  runs cover balance conservation, the ball-list invariant, non-negativity and the
  round report. Concrete lemmas replay the height-8 scenarios.

Inputs such as the bet, the ball count and the height are taken as already-parsed
integers. The canvas size is a pair of reals. Spawn timers become a pending count: a
drop adds to it and each `SpawnTimer` event takes one off. Which balls have fallen below
the pyramid in a physics step is given as a set of ball ids. Collisions arrive as pairs
of bodies, each with a label, an id and a multiplier. Every operation is a pure
function, so the same inputs always give the same board and the same next session.

## Quirks of the code the model keeps

- `calculateMultiplier(i, totalBins)` is called with `totalBins = pyramidHeight`
  (`scripts/index.js:125`), while there are `pyramidHeight + 1` bins. The table is
  therefore symmetric only for even heights; for odd heights the rightmost bin pays one
  more than the leftmost. With an even number of bins no integer centre gives a
  symmetric table, so the choice of argument cannot make it symmetric either.
- Winnings are `betAmount * bin.multiplier` with the `betAmount` stored when the ball
  lands (line 281). Every later drop overwrites `betAmount`, a refused one included.
- `dropBalls` stores the new bet and count (lines 170-171) before it checks the balance,
  so a refused drop still changes them.
- `createGame` empties `activeBalls` (line 52) but leaves the timers set at line 182
  running. A spawn that fires afterwards puts a ball on the new board.
- A landing is credited (lines 281-282) even when its ball is not in `activeBalls`. The
  "all landed" alert fires whenever `activeBalls` is empty after a landing (line 291),
  even while spawns are still pending and even when the list was already empty.
- The alert's "Total winnings" is `balance - (1000 - betAmount * ballCount)` (line 294),
  with 1000 written into the code. It equals the round's winnings exactly when the
  balance before the drop was 1000.
- The per-step sweep (lines 237-241) splices inside `forEach`, so the ball that moves
  into a removed ball's position is not visited in that step. A fallen ball can
  therefore stay for another step, but every sweep removes at least one fallen ball if
  any exist.
- Bin `i` is a rectangle whose centre is `(canvasWidth - maxRowWidth)/2 + binWidth*i`
  (line 120), so the bins are centred under the bottom-row pegs.
- A height below 1 makes `createGame` throw when it reads `pegPositions[pyramidHeight - 1]`
  (line 133). `activeBalls` has already been emptied by then.

## Model

| member | source | states |
|---|---|---|
| Multipliers.MiddleBin | scripts/index.js:165 | the middle index is floor(n/2): 2·mid ≤ n < 2·mid + 2, also for negative n |
| Multipliers.Multiplier | scripts/index.js:164-167 | the multiplier is at least 1, and it is 1 exactly at the middle bin |
| Multipliers.MultiplierGrowsAwayFromMiddle | scripts/index.js:164-167 | each step away from the middle, on either side, raises the multiplier by exactly 1 |
| Multipliers.MultiplierDependsOnDistance | scripts/index.js:164-167 | two bins pay the same iff they are equally far from the middle |
| Multipliers.MultiplierSymmetricForEvenHeight | scripts/index.js:119-125 | with totalBins = h and bins 0..h, bin i and bin h-i pay the same when h is even |
| Multipliers.MultiplierAsymmetricForOddHeight | scripts/index.js:119-125 | for odd h the rightmost bin pays one more than the leftmost |
| Multipliers.HeightSevenTable | scripts/index.js:125 | height 7: bin 0 pays 4, bin 7 pays 5, bin 3 pays 1 |
| Multipliers.OddHeightHasNoSymmetricCentre | scripts/index.js:164-167 | for odd h no integer centre gives the outermost bins equal distance |
| Labels.DecimalString | scripts/index.js:124 | the index in a bin label is rendered as one or more decimal digits with no leading zero |
| Labels.ParseDecimalString | scripts/index.js:124 | reading the rendered digits back gives the index |
| Labels.BinLabel | scripts/index.js:124 | a bin label is longer than, and starts with, the `bin_` prefix |
| Labels.BinIndex | scripts/index.js:124 | the reading-back of the `bin_${i}` rendering, used to show that labels are injective: it yields an index only for a label that starts with `bin_` |
| Labels.BinLabelRoundTrip | scripts/index.js:124 | every bin label passes the prefix test (`IsBinLabel`, the `startsWith("bin_")` of lines 261-263), names its own index, and is neither `ball` nor `peg` |
| Labels.BinLabelInjective | scripts/index.js:124 | two bins have the same label iff they have the same index |
| Labels.LabelsAreExclusive | scripts/index.js:261-277 | `ball` and `peg` fail the bin-prefix test `IsBinLabel` and differ, so at most one classification applies to a body |
| Layout.MetricsFor | scripts/index.js:79-89 | the ball radius is the largest that fits: h·3 radii fit in 80% of the width, h·4 radii fit in 80% of the height, and one of the two is filled exactly; the peg radius is half the ball radius and the horizontal spacing is 3 ball radii; the spacing is non-negative on a non-negative canvas; on a positive canvas 0 < peg radius < ball radius; the h+1 vertical spacings fill 80% of the height |
| Layout.PegRow | scripts/index.js:94-111 | row r holds r+2 pegs on one horizontal line; neighbouring pegs are one horizontal spacing apart; peg k and peg r+1−k are mirror images about canvasWidth/2 |
| Layout.CreateGame | scripts/index.js:45-162 | fails iff h < 1; otherwise h rows with r+2 pegs each, h+1 bins where bin i is labelled `bin_i` with multiplier calculateMultiplier(i, h), top at 10% and bottom at 90% of the height |
| Layout.CountPegsOfPyramid | scripts/index.js:93-111 | rows of 2, 3, … pegs total n(n+3)/2 |
| Layout.TotalPegs | scripts/index.js:93-111 | a pyramid of height h has h(h+3)/2 pegs |
| Layout.MaxRowWidthNonNegativeSpacing | scripts/index.js:91-96 | with non-negative spacing the running maximum `MaxRowWidth` is the last row's width |
| Layout.MaxRowWidthNegativeSpacing | scripts/index.js:91-96 | with negative spacing the running maximum stays at its start value 0 |
| Layout.MaxRowWidthIsBottomRow | scripts/index.js:91-96 | the running maximum `MaxRowWidth` (the `Math.max` over the rows, from 0) equals the bottom row's width h·spacing iff the spacing is non-negative |
| Layout.PegSpacing | scripts/index.js:102-103 | neighbouring pegs of a row are one horizontal spacing apart and at the same height |
| Layout.PegRowMirrored | scripts/index.js:94-103 | peg k and peg n-1-k of a row are mirror images about canvasWidth/2 |
| Layout.CreateGameParts | scripts/index.js:133-136 | on any canvas, the left and right bounds are the x's of the bottom row's first and last pegs |
| Layout.BinCentreUnderPeg | scripts/index.js:115-120 | with non-negative spacing, bin i's x equals the x of peg i of the bottom row |
| Layout.BuiltBinsUnderBottomRow | scripts/index.js:115-120 | with non-negative spacing, bin i's centre has the x of bottom-row peg i |
| Layout.BinsUnderBottomRow | scripts/index.js:115-120 | on a canvas of non-negative size, bin i is centred under peg i of the bottom row |
| Layout.BoundsAreOuterBins | scripts/index.js:131-136 | on a canvas of non-negative size, pyramidBounds.left and .right are the centres of bin 0 and bin h |
| Layout.BuiltBinsContiguous | scripts/index.js:115-120 | neighbouring bin centres are one bin width apart |
| Layout.BinsContiguous | scripts/index.js:115-120 | bins sit edge to edge: each centre is one bin width past the previous one |
| Layout.RowYBetweenBounds | scripts/index.js:98 | with positive spacing, a row's y lies in [10%, 90%) of the height and below the previous row's |
| Layout.BuiltRowsDescend | scripts/index.js:98 | rows go strictly down and every peg lies between the top and bottom bounds |
| Layout.RowsDescend | scripts/index.js:98 | on a canvas of positive height, row y strictly increases with the row index and every peg is at or below the top and above the bottom bound |
| InFlight.IndexOf | scripts/index.js:286 | returns -1 iff the ball is absent, else the first position holding it |
| InFlight.RemoveFirst | scripts/index.js:286-289 | an absent ball leaves the list unchanged; for a present one the result is the list with its first occurrence cut out, the other balls kept in order |
| InFlight.RemoveFirstKeepsDistinct | scripts/index.js:286-289 | every other ball stays, nothing is added, and in a duplicate-free list the ball is gone entirely |
| InFlight.SweepFrom | scripts/index.js:237-241 | the forEach+splice pass never lengthens the list and leaves it alone once the index is past its end; its exact result is stated by SweepFromMatchesSurvivors |
| InFlight.SweepFromMatchesSurvivors | scripts/index.js:237-241 | resumed just past an already visited prefix p, the pass yields exactly p followed by Survivors of the rest: a fallen ball is spliced out and the ball that slides into its index is passed over, all other balls are kept in order |
| InFlight.SweepMatchesSurvivors | scripts/index.js:237-241 | a whole pass (`Sweep`) equals the reference `Survivors`, order included |
| InFlight.SurvivorsOfStanding | scripts/index.js:237-241 | when no listed ball has fallen, the pass leaves the list exactly as it was |
| InFlight.SurvivorsShrink | scripts/index.js:237-241 | the pass never holds a ball more often than the list did |
| InFlight.SurvivorsKeepStanding | scripts/index.js:237-241 | every ball that has not fallen keeps its number of occurrences |
| InFlight.SweepIsSound | scripts/index.js:237-241 | a sweep (`Sweep`, the whole `forEach` pass, equal to `Survivors` by SweepMatchesSurvivors) is a sub-multiset of the list, keeps every ball that has not fallen as often as it was listed, removes only fallen balls, adds none and keeps the list duplicate-free |
| InFlight.SweepFromProgress | scripts/index.js:237-241 | if a fallen ball lies at or after the current position, the pass shortens the list |
| InFlight.SweepRemovesSome | scripts/index.js:237-241 | if any ball has fallen, one sweep removes at least one |
| InFlight.SweepSkipsNeighbour | scripts/index.js:237-241 | two adjacent fallen balls [0, 1]: one sweep leaves [1] |
| InFlight.SweepsClearFallen | scripts/index.js:236-241 | as many sweeps as there are balls leave no fallen ball |
| Session.Initial | scripts/index.js:10-15 | the page starts with balance 1000, bet 10, ball count 1, no ball in flight and nothing scheduled |
| Session.Scheduled | scripts/index.js:181 | the drop loop schedules count spawns, none for a negative count |
| Session.Drop | scripts/index.js:169-206 | stores bet and count; alerts iff bet·count > balance, and then raises exactly that one alert and nothing else changes; otherwise debits exactly bet·count and schedules count spawns; the ledger accounts for the change; non-negative balance and inputs keep the balance non-negative |
| Session.Spawn | scripts/index.js:182-205 | a fired spawn appends one fresh ball id and takes one pending spawn off; the balance is untouched |
| Session.Classify | scripts/index.js:259-277 | a landing is a bin-labelled body and a `ball`, both from the pair; bin-then-ball and ball-then-bin pairs both land |
| Session.ClassifyIgnoresOrder | scripts/index.js:261-277 | swapping the two bodies of a pair does not change its classification |
| Session.Resolve | scripts/index.js:279-298 | a landing credits the current bet × the bin multiplier even for an unlisted ball, leaves the list as `indexOf`/`splice` does (first occurrence cut out, order kept, unchanged for an unlisted ball), and alerts with the report iff the list is empty; anything else changes nothing |
| Session.Land | scripts/index.js:279-297 | a landing credits exactly bet × the bin multiplier, leaves the list as `indexOf`/`splice` does (first occurrence cut out, order kept, unchanged for an unlisted ball), and alerts iff the list is then empty, with `Report` = balance − (1000 − bet·count) as line 294 computes it |
| Session.ResolvePays | scripts/index.js:281-282 | one pair raises the balance by the current bet × its landing multiplier (0 if not a landing) |
| Session.Collide | scripts/index.js:257-306 | a collision event raises the balance by the current bet × the sum of the landing multipliers, and keeps the ball-list invariant |
| Session.CollideRemovesOnlyLanded | scripts/index.js:279-290 | a collision event adds no ball to the list, and every ball that no pair of the event lands stays in it |
| Session.CollideLedger | scripts/index.js:257-298 | a collision event records only credits, exactly matching the balance change, and its only alerts are round reports |
| Session.Tick | scripts/index.js:236-241 | a physics step leaves exactly `Survivors` of the list, in order (so a ball after a fallen one is passed over); it removes only fallen balls, keeps the others, adds none, leaves the list unchanged when nothing has fallen, and pays nothing |
| Session.Regenerate | scripts/index.js:45-52 | the list of balls in flight is emptied; pending spawns, balance, bet and count are kept |
| Game.Apply | scripts/index.js:169-306 | every event moves the balance by exactly its ledger and keeps the ball-list invariant; only drops change the bet and count |
| Game.RunConservesBalance | scripts/index.js:172-178 | over any run, final balance = initial balance − stakes debited + winnings credited |
| Game.RunKeepsValid | scripts/index.js:181-205 | over any run, the balls in flight stay distinct and were all spawned |
| Game.LandedMultipliersNonNegative | scripts/index.js:281 | if all bodies have non-negative multipliers, landings sum to a non-negative multiplier |
| Game.RunKeepsBalanceNonNegative | scripts/index.js:174-178 | with non-negative bets, counts and multipliers, the balance never goes negative |
| Game.ReportTracksCredits | scripts/index.js:291-296 | without drops, bet and count stay, only credits occur, and the reported figure grows by exactly the credits |
| Game.RoundReport | scripts/index.js:291-296 | after an accepted drop, the report equals the round's winnings plus (balance before the drop − 1000), so it is exact iff that balance was 1000 |
| Game.SpawnsFillInFlight | scripts/index.js:181-205 | n fired spawns append n consecutive fresh ids and consume n pending spawns |
| Game.DropSchedulesCount | scripts/index.js:178-206 | an accepted drop followed by its count timers puts exactly count new balls in flight, with the stake debited |
| Game.StaleSpawnAfterRegenerate | scripts/index.js:52 | regeneration empties the list, but a pending spawn then puts a ball on the new board |
| Game.NegativeCountCredits | scripts/index.js:172-181 | a drop with count −5 and bet 10 passes the check, credits 50 and schedules nothing |
| Game.LandingUsesCurrentBet | scripts/index.js:170-177 | after a refused drop, a landing pays the refused drop's bet |
| Game.BinLandingPays | scripts/index.js:119-126 | a ball and bin i of the board, in either order, land and pay calculateMultiplier(i, h) |
| Game.OnlyBallLands | scripts/index.js:169-206 | from balance 1000, one ball at bet 10 dropped, spawned and landing in any bin ends at 990 + 10·multiplier and reports 10·multiplier |
| Game.OneBallRoundSteps | scripts/index.js:169-206 | from balance 1000 with bet 10 and one ball landing in bin i of height 8, the balance is 990 + 10·multiplier and the alert reports 10·multiplier |
| Game.EightHighScenarios | scripts/index.js:279-296 | height 8: landing in the middle bin restores 1000; landing in bin 0 gives 1040 and reports 50 |

## Left out

- Physics engine: body construction, adding and removing bodies, running the engine
  and renderer, and the simulation. It is an external library whose behaviour is not
  visible here. Bodies are reduced to a label, an id and a multiplier.
- The four outer walls (lines 54-77) and the two invisible side walls (lines 138-154):
  they are engine bodies with no bookkeeping. The outer walls are placed from the canvas
  size alone. The side walls are placed from the pyramid bounds, which are modelled.
- Rendering, alerts, the balance display, reading the input fields with `parseInt`, and
  event-listener wiring: this is UI glue. Inputs are already-parsed integers, and `NaN`
  is not modelled. Alerts become `Notice` values. The model assumes that both engine
  handlers (lines 236 and 257) are attached. As written, `Events.on(engine, …)` runs
  when the script loads, before `initGame` assigns `engine` (line 22, run on the page's
  load event). If the engine library rejects an undefined first argument, neither
  handler is attached and the sweep and the collision handling never run. The engine
  library is not part of this model, so this is not settled here.
- Randomness: the spawn x-jitter, the peg-collision impulse and the per-step
  force/impulse in `beforeUpdate` are unseeded random floating-point force vectors.
  A peg hit is classified (`PegHit`) but changes no modelled state.
- Timer delays: only the queue of pending spawns is modelled, not the 200 ms spacing.
- Floating-point rounding: geometry is stated over `real`, so nothing is claimed about
  bit-exact IEEE results.
- The board state of a failed `createGame` (height below 1): the source has already
  cleared the world and added the walls before it throws. For height 0 it has also
  added one bin and set an infinite ball radius (both quotients divide by 0). For a
  negative height it has added no bin, and the ball radius is negative. The model returns
  `MissingBottomRow` and keeps only the session effect, which is the emptied ball list.
- Which balls are below the pyramid in a physics step depends on simulated positions.
  It is an input set of ball ids.
- Number width: `balance`, `betAmount` and `ballCount` are IEEE doubles in the source
  (lines 13-15, 172, 178, 282), while the model uses unbounded integers. The model's
  arithmetic agrees with the program only while every value stays within ±2^53. For
  example, bet 10 with count −10^16 passes the check at line 174, and the program then
  stores 10^17 + 992 where the model has 10^17 + 1000.
- Layout.BinsUnderBottomRow: holds only for a canvas of non-negative size. With negative
  spacing the running maximum stays 0 and the bins are offset. A browser window never
  has negative size.

=== FILE: Game.dfy ===
/** The page as a whole: a session driven by a sequence of events (the drop
    button, spawn timers firing, collision events, physics steps and board
    regeneration), with the properties that hold over any such sequence. */
module Game {
  import opened Session
  import Layout
  import Labels
  import Multipliers

  datatype Event =
    | DropBalls(bet: int, count: int)
    | SpawnTimer
    | Collision(pairs: seq<Pair>)
    | BeforeUpdate(fallen: set<BallId>)
    | NewBoard

  /** The session's reaction to one event. */
  function Apply(s: Session, e: Event): (r: Step)
    ensures r.next.balance == s.balance + Net(r.ledger)
    ensures Valid(s) ==> Valid(r.next)
    ensures !e.DropBalls? ==>
              && r.next.betAmount == s.betAmount && r.next.ballCount == s.ballCount
              && (forall k :: 0 <= k < |r.ledger| ==> r.ledger[k].Credit?)
  {
    match e
    case DropBalls(bet, count) => Drop(s, bet, count)
    case SpawnTimer => Spawn(s)
    case Collision(pairs) => CollideLedger(s, pairs); Collide(s, pairs)
    case BeforeUpdate(fallen) => Tick(s, fallen)
    case NewBoard => Regenerate(s)
  }

  /** The events applied in order; alerts and balance movements accumulate. */
  function Run(s: Session, events: seq<Event>): Step
    decreases |events|
  {
    if |events| == 0 then Step(s, [], [])
    else
      var first := Apply(s, events[0]);
      var rest := Run(first.next, events[1..]);
      Step(rest.next, first.notices + rest.notices, first.ledger + rest.ledger)
  }

  lemma RunSingle(s: Session, e: Event)
    ensures Run(s, [e]) == Apply(s, e)
  {
    var first := Apply(s, e);
    assert [e][1..] == [];
    assert first.notices + [] == first.notices && first.ledger + [] == first.ledger;
  }

  lemma RunCons(s: Session, e: Event, rest: seq<Event>)
    ensures var first := Apply(s, e);
            Run(s, [e] + rest)
              == Step(Run(first.next, rest).next, first.notices + Run(first.next, rest).notices,
                      first.ledger + Run(first.next, rest).ledger)
  {
    assert ([e] + rest)[1..] == rest;
  }

  /** Balance conservation: over any run the balance moves by exactly the
      stakes debited and the winnings credited. */
  lemma {:induction false} RunConservesBalance(s: Session, events: seq<Event>)
    ensures Run(s, events).next.balance == s.balance + Net(Run(s, events).ledger)
    decreases |events|
  {
    if |events| > 0 {
      var first := Apply(s, events[0]);
      RunConservesBalance(first.next, events[1..]);
      NetAppend(first.ledger, Run(first.next, events[1..]).ledger);
    }
  }

  /** Balls in flight stay distinct and known over any run. */
  lemma {:induction false} RunKeepsValid(s: Session, events: seq<Event>)
    requires Valid(s)
    ensures Valid(Run(s, events).next)
    decreases |events|
  {
    if |events| > 0 {
      RunKeepsValid(Apply(s, events[0]).next, events[1..]);
    }
  }

  /** Events whose inputs are not negative: bets and counts of drops, and the
      multipliers of the bodies in collisions. */
  predicate NonNegativeEvent(e: Event) {
    match e
    case DropBalls(bet, count) => bet >= 0 && count >= 0
    case Collision(pairs) =>
      forall k :: 0 <= k < |pairs| ==> pairs[k].bodyA.multiplier >= 0 && pairs[k].bodyB.multiplier >= 0
    case _ => true
  }

  lemma {:induction false} LandedMultipliersNonNegative(pairs: seq<Pair>)
    requires forall k :: 0 <= k < |pairs| ==> pairs[k].bodyA.multiplier >= 0 && pairs[k].bodyB.multiplier >= 0
    ensures LandedMultipliers(pairs) >= 0
    decreases |pairs|
  {
    if |pairs| > 0 {
      LandedMultipliersNonNegative(pairs[1..]);
      assert LandedMultiplier(pairs[0]) >= 0;
    }
  }

  lemma MulNonNegative(a: int, b: int)
    requires a >= 0 && b >= 0
    ensures a * b >= 0
  {
  }

  /** With non-negative inputs the balance never goes negative: a drop is
      refused rather than overdrawn, and landings only add. */
  lemma {:induction false} RunKeepsBalanceNonNegative(s: Session, events: seq<Event>)
    requires s.balance >= 0 && s.betAmount >= 0
    requires forall k :: 0 <= k < |events| ==> NonNegativeEvent(events[k])
    ensures Run(s, events).next.balance >= 0
    decreases |events|
  {
    if |events| > 0 {
      var e := events[0];
      var next := Apply(s, e).next;
      if e.Collision? {
        LandedMultipliersNonNegative(e.pairs);
        MulNonNegative(s.betAmount, LandedMultipliers(e.pairs));
      }
      assert next.balance >= 0 && next.betAmount >= 0;
      RunKeepsBalanceNonNegative(next, events[1..]);
    }
  }

  predicate NoDrops(events: seq<Event>) {
    forall k :: 0 <= k < |events| ==> !events[k].DropBalls?
  }

  /** Without drops the bet and count stay put, only credits are recorded, and
      the reported figure grows by exactly what is credited. */
  lemma {:induction false} ReportTracksCredits(s: Session, events: seq<Event>)
    requires NoDrops(events)
    ensures var r := Run(s, events);
            && r.next.betAmount == s.betAmount && r.next.ballCount == s.ballCount
            && (forall k :: 0 <= k < |r.ledger| ==> r.ledger[k].Credit?)
            && Report(r.next) == Report(s) + Net(r.ledger)
    decreases |events|
  {
    RunConservesBalance(s, events);
    if |events| > 0 {
      var first := Apply(s, events[0]);
      ReportTracksCredits(first.next, events[1..]);
      var rest := Run(first.next, events[1..]);
      var ledger := first.ledger + rest.ledger;
      forall k | 0 <= k < |ledger|
        ensures ledger[k].Credit?
      {
        if k >= |first.ledger| {
          assert ledger[k] == rest.ledger[k - |first.ledger|];
        }
      }
    }
  }

  /** The "Total winnings" alert after an accepted drop: it equals the round's
      winnings plus the amount by which the balance before the drop differed
      from 1000, so it is exact exactly when that balance was 1000. */
  lemma RoundReport(s: Session, bet: int, count: int, events: seq<Event>)
    requires bet * count <= s.balance
    requires NoDrops(events)
    ensures var r := Run(Drop(s, bet, count).next, events);
            && (forall k :: 0 <= k < |r.ledger| ==> r.ledger[k].Credit?)
            && Report(r.next) == Net(r.ledger) + (s.balance - InitialBalance)
            && (Report(r.next) == Net(r.ledger) <==> s.balance == InitialBalance)
  {
    ReportTracksCredits(Drop(s, bet, count).next, events);
  }

  /** `n` spawn timers firing. */
  function Spawns(n: nat): (events: seq<Event>)
    ensures |events| == n && NoDrops(events)
  {
    seq(n, _ => SpawnTimer)
  }

  /** `n` consecutive ball ids starting at `first`. */
  function Fresh(first: BallId, n: nat): (ids: seq<BallId>)
    ensures |ids| == n
  {
    seq(n, i requires 0 <= i < n => first + i)
  }

  /** Firing `n` scheduled spawns appends `n` fresh balls, in order. */
  lemma {:induction false} SpawnsFillInFlight(s: Session, n: nat)
    requires n <= s.pending
    ensures var t := Run(s, Spawns(n)).next;
            && t.activeBalls == s.activeBalls + Fresh(s.nextBall, n)
            && t.pending == s.pending - n && t.nextBall == s.nextBall + n
            && t.balance == s.balance
    decreases n
  {
    if n > 0 {
      var first := Spawn(s).next;
      assert Spawns(n)[1..] == Spawns(n - 1);
      SpawnsFillInFlight(first, n - 1);
      assert s.activeBalls + Fresh(s.nextBall, n)
          == first.activeBalls + Fresh(first.nextBall, n - 1);
    }
  }

  /** An accepted drop of `count` balls followed by its `count` timers puts
      exactly `count` new balls in flight and leaves the stake debited. */
  lemma DropSchedulesCount(s: Session, bet: int, count: nat)
    requires bet * count <= s.balance
    ensures var t := Run(s, [DropBalls(bet, count)] + Spawns(count)).next;
            && t.activeBalls == s.activeBalls + Fresh(s.nextBall, count)
            && t.pending == s.pending
            && t.balance == s.balance - bet * count
  {
    var events := [DropBalls(bet, count)] + Spawns(count);
    assert events[1..] == Spawns(count);
    SpawnsFillInFlight(Drop(s, bet, count).next, count);
  }

  /** Regenerating the board empties the balls in flight but a spawn still
      pending from an earlier drop lands a ball on the new board. */
  lemma StaleSpawnAfterRegenerate(s: Session)
    requires s.pending > 0
    ensures Run(s, [NewBoard]).next.activeBalls == []
    ensures Run(s, [NewBoard, SpawnTimer]).next.activeBalls == [s.nextBall]
  {
    assert [NewBoard, SpawnTimer][1..] == [SpawnTimer];
  }

  /** A negative ball count passes the funds check, credits the balance and
      schedules nothing. */
  lemma NegativeCountCredits(s: Session)
    requires s.balance >= 0
    ensures Drop(s, 10, -5).next.balance == s.balance + 50
    ensures Drop(s, 10, -5).next.pending == s.pending
    ensures Drop(s, 10, -5).notices == []
  {
  }

  /** Winnings use the bet stored at landing time, not the bet the ball was
      dropped with: even a refused drop replaces it. */
  lemma LandingUsesCurrentBet(s: Session, bet: int, count: int, p: Pair)
    requires bet * count > s.balance
    ensures var t := Drop(s, bet, count).next;
            Resolve(t, p).next.balance == s.balance + bet * LandedMultiplier(p)
  {
    ResolvePays(Drop(s, bet, count).next, p);
  }

  /** A bin of the board as a colliding body. */
  function BinBody(b: Layout.Bin): Body {
    Body(b.tag, 0, b.multiplier)
  }

  function BallBody(id: BallId): Body {
    Body(Labels.BallLabel, id, 0)
  }

  /** A ball landing in bin `i` is classified as a landing paying that bin's
      multiplier, whichever order the pair comes in. */
  lemma BinLandingPays(h: int, width: real, height: real, i: nat, ball: BallId)
    requires 1 <= h && i <= h
    ensures var bin := Layout.CreateGame(h, width, height).value.bins[i];
            && LandedMultiplier(Pair(BinBody(bin), BallBody(ball))) == Multipliers.Multiplier(i, h)
            && Classify(Pair(BinBody(bin), BallBody(ball))) == Landing(BinBody(bin), BallBody(ball))
            && Classify(Pair(BallBody(ball), BinBody(bin))) == Landing(BinBody(bin), BallBody(ball))
  {
    Labels.BinLabelRoundTrip(i);
  }

  /** One ball dropped at bet 10 from the starting balance, spawned, and
      landing in `bin`. */
  function RoundWith(bin: Body): Step {
    Run(Initial(), [DropBalls(10, 1), SpawnTimer, Collision([Pair(bin, BallBody(0))])])
  }

  /** One ball dropped from the starting balance and landing in bin `i` of
      the height-8 board. */
  function OneBallRound(width: real, height: real, i: nat): Step
    requires i <= 8
  {
    RoundWith(BinBody(Layout.CreateGame(8, width, height).value.bins[i]))
  }

  /** A round whose only ball lands in `bin` ends with the stake replaced by
      the bin's payout, and reports that payout. */
  lemma OnlyBallLands(bin: Body)
    requires Classify(Pair(bin, BallBody(0))) == Landing(bin, BallBody(0))
    ensures RoundWith(bin).next.balance == 990 + 10 * bin.multiplier
    ensures RoundWith(bin).notices == [AllLanded(10 * bin.multiplier)]
  {
    var landing := Pair(bin, BallBody(0));
    var s1 := Drop(Initial(), 10, 1).next;
    var s2 := Spawn(s1).next;
    assert s2.activeBalls == [0];
    var settled := Resolve(s2, landing);
    assert settled.next.activeBalls == [];
    assert settled.next.balance == 990 + 10 * bin.multiplier;
    assert settled.notices == [AllLanded(10 * bin.multiplier)];
    var s3 := Collide(s2, [landing]);
    assert [landing][1..] == [];
    assert Collide(settled.next, []) == Step(settled.next, [], []);
    assert settled.notices + [] == settled.notices;
    assert s3.next == settled.next && s3.notices == settled.notices;
    RunSingle(s2, Collision([landing]));
    RunCons(s1, SpawnTimer, [Collision([landing])]);
    RunCons(Initial(), DropBalls(10, 1), [SpawnTimer, Collision([landing])]);
    assert [SpawnTimer] + [Collision([landing])] == [SpawnTimer, Collision([landing])];
    assert [DropBalls(10, 1)] + [SpawnTimer, Collision([landing])]
        == [DropBalls(10, 1), SpawnTimer, Collision([landing])];
  }

  lemma OneBallRoundSteps(width: real, height: real, i: nat)
    requires i <= 8
    ensures var m := Multipliers.Multiplier(i, 8);
            && OneBallRound(width, height, i).next.balance == 990 + 10 * m
            && OneBallRound(width, height, i).notices == [AllLanded(10 * m)]
  {
    var bin := Layout.CreateGame(8, width, height).value.bins[i];
    BinLandingPays(8, width, height, i, 0);
    OnlyBallLands(BinBody(bin));
  }

  /** Height 8, balance 1000, bet 10, one ball: landing in the middle bin
      (multiplier 1) restores 1000; landing in the leftmost bin (multiplier
      5) gives 1040. */
  lemma EightHighScenarios(width: real, height: real)
    ensures OneBallRound(width, height, 4).next.balance == 1000
    ensures OneBallRound(width, height, 0).next.balance == 1040
    ensures OneBallRound(width, height, 0).notices == [AllLanded(50)]
  {
    OneBallRoundSteps(width, height, 4);
    OneBallRoundSteps(width, height, 0);
  }
}

=== FILE: InFlight.dfy ===
/** The list of balls in flight (`activeBalls`) and the two ways balls leave
    it: removal of one ball after it lands in a bin (`indexOf` + `splice`),
    and the per-step sweep of balls that fell below the pyramid, which
    splices inside `forEach`. */
module InFlight {

  type BallId = nat

  /** No ball appears twice. */
  predicate Distinct(a: seq<BallId>) {
    forall x :: x in a ==> multiset(a)[x] == 1
  }

  /** `a.indexOf(x)`: the first position holding `x`, or -1. */
  function IndexOf(a: seq<BallId>, x: BallId): (i: int)
    ensures -1 <= i < |a|
    ensures i == -1 <==> x !in a
    ensures i >= 0 ==> a[i] == x && x !in a[..i]
  {
    if |a| == 0 then -1
    else if a[0] == x then 0
    else
      var j := IndexOf(a[1..], x);
      assert j >= 0 ==> a[1..][..j] == a[1..j + 1];
      if j == -1 then -1 else j + 1
  }

  /** `r` is `a` with its first `x` cut out and every other ball kept in order. */
  predicate CutAtFirst(a: seq<BallId>, x: BallId, r: seq<BallId>) {
    exists i :: 0 <= i < |a| && a[i] == x && x !in a[..i] && r == a[..i] + a[i + 1..]
  }

  /** `index = a.indexOf(x); if (index > -1) a.splice(index, 1)`: the first
      occurrence of `x` goes, everything else stays in order. */
  function RemoveFirst(a: seq<BallId>, x: BallId): (r: seq<BallId>)
    ensures x !in a ==> r == a
    ensures x in a ==> |r| == |a| - 1 && multiset(r) == multiset(a) - multiset{x}
    ensures x in a ==> CutAtFirst(a, x, r)
  {
    var i := IndexOf(a, x);
    if i == -1 then a
    else
      assert a == a[..i] + [a[i]] + a[i + 1..];
      a[..i] + a[i + 1..]
  }

  /** Removing one ball keeps every other ball, and in a list without
      duplicates it removes the ball entirely. */
  lemma RemoveFirstKeepsDistinct(a: seq<BallId>, x: BallId)
    ensures forall y :: y in a && y != x ==> y in RemoveFirst(a, x)
    ensures forall y :: y in RemoveFirst(a, x) ==> y in a
    ensures Distinct(a) ==> Distinct(RemoveFirst(a, x)) && x !in RemoveFirst(a, x)
  {
    var r: seq<BallId> := RemoveFirst(a, x);
    if Distinct(a) && x in a {
      assert multiset(r)[x] == 0;
    }
    forall y | y in a && y != x
      ensures y in r
    {
      assert multiset(a)[y] > 0;
    }
    forall y | y in r
      ensures y in a
    {
      assert multiset(r)[y] > 0;
    }
  }

  /** The `forEach` loop over `activeBalls` from position `k`, where `len` is
      the length fixed when the loop started.  A fallen ball is spliced out
      in place; the ball that slides into its position is not visited, and
      positions past the shortened end are skipped. */
  function SweepFrom(a: seq<BallId>, k: nat, len: nat, fallen: set<BallId>): (r: seq<BallId>)
    ensures |r| <= |a|
    ensures |a| <= k ==> r == a
    decreases len - k
  {
    if k >= len then a
    else if k < |a| && a[k] in fallen then
      SweepFrom(a[..k] + a[k + 1..], k + 1, len, fallen)
    else SweepFrom(a, k + 1, len, fallen)
  }

  /** One `beforeUpdate` pass over the balls in flight. */
  function Sweep(a: seq<BallId>, fallen: set<BallId>): seq<BallId> {
    SweepFrom(a, 0, |a|, fallen)
  }

  predicate NoneFallen(a: seq<BallId>, fallen: set<BallId>) {
    forall i :: 0 <= i < |a| ==> a[i] !in fallen
  }

  /** Which balls a pass leaves, read left to right: a ball that has not
      fallen stays; a fallen ball goes, and the ball right after it stays
      unvisited whatever its state.  Order is kept. */
  function Survivors(a: seq<BallId>, fallen: set<BallId>): (r: seq<BallId>)
    ensures |r| <= |a|
  {
    if |a| == 0 then []
    else if a[0] in fallen then
      (if |a| == 1 then [] else [a[1]] + Survivors(a[2..], fallen))
    else
      [a[0]] + Survivors(a[1..], fallen)
  }

  /** With nothing fallen a pass leaves the list as it was, order included. */
  lemma {:induction false} SurvivorsOfStanding(a: seq<BallId>, fallen: set<BallId>)
    ensures NoneFallen(a, fallen) ==> Survivors(a, fallen) == a
  {
    if |a| > 0 && NoneFallen(a, fallen) {
      assert a[0] !in fallen;
      assert NoneFallen(a[1..], fallen) by {
        forall i | 0 <= i < |a[1..]|
          ensures a[1..][i] !in fallen
        {
          assert a[1..][i] == a[i + 1];
        }
      }
      SurvivorsOfStanding(a[1..], fallen);
      assert a == [a[0]] + a[1..];
    }
  }

  /** The survivors never hold a ball more often than the list does. */
  lemma {:induction false} SurvivorsShrink(a: seq<BallId>, fallen: set<BallId>)
    ensures multiset(Survivors(a, fallen)) <= multiset(a)
  {
    if |a| > 1 && a[0] in fallen {
      var rest := Survivors(a[2..], fallen);
      SurvivorsShrink(a[2..], fallen);
      HeadSplit([a[1]], rest);
      HeadSplit(a, a[1..]);
      HeadSplit(a[1..], a[2..]);
      ConsShrinks(a[1], multiset(rest), multiset(a[2..]));
      DropShrinks(a[0], multiset(Survivors(a, fallen)), multiset(a[1..]));
    } else if |a| > 0 && a[0] !in fallen {
      var rest := Survivors(a[1..], fallen);
      SurvivorsShrink(a[1..], fallen);
      HeadSplit([a[0]], rest);
      HeadSplit(a, a[1..]);
      ConsShrinks(a[0], multiset(rest), multiset(a[1..]));
    }
  }

  /** A sequence's multiset is its head plus the multiset of its tail. */
  lemma HeadSplit(a: seq<BallId>, tail: seq<BallId>)
    requires |a| > 0
    ensures tail == a[1..] ==> multiset(a) == multiset{a[0]} + multiset(tail)
    ensures |a| == 1 ==> multiset(a + tail) == multiset{a[0]} + multiset(tail)
  {
    if tail == a[1..] {
      assert a == [a[0]] + a[1..];
    }
  }

  lemma ConsShrinks(x: BallId, p: multiset<BallId>, q: multiset<BallId>)
    requires p <= q
    ensures multiset{x} + p <= multiset{x} + q
  {}

  lemma DropShrinks(x: BallId, p: multiset<BallId>, q: multiset<BallId>)
    requires p <= q
    ensures p <= multiset{x} + q
  {}

  /** Every ball that has not fallen keeps its count. */
  lemma {:induction false} SurvivorsKeepStanding(a: seq<BallId>, fallen: set<BallId>)
    ensures forall x :: x !in fallen ==> multiset(Survivors(a, fallen))[x] == multiset(a)[x]
  {
    if |a| == 1 && a[0] in fallen {
      assert a == [a[0]];
    } else if |a| > 1 && a[0] in fallen {
      SurvivorsKeepStanding(a[2..], fallen);
      assert a == [a[0]] + [a[1]] + a[2..];
      assert multiset(a) == multiset{a[0]} + multiset{a[1]} + multiset(a[2..]);
    } else if |a| > 0 {
      SurvivorsKeepStanding(a[1..], fallen);
      assert a == [a[0]] + a[1..];
    }
  }

  /** The pass over `p + q` from the first position of `q` keeps the visited
      prefix `p` and leaves the reference survivors of `q`. */
  lemma {:induction false} SweepFromMatchesSurvivors(p: seq<BallId>, q: seq<BallId>, len: nat, fallen: set<BallId>)
    requires |p| + |q| <= len
    ensures SweepFrom(p + q, |p|, len, fallen) == p + Survivors(q, fallen)
    decreases len - |p|
  {
    if |q| == 0 {
      assert p + q == p;
    } else if q[0] !in fallen {
      SweepFromMatchesSurvivors(p + [q[0]], q[1..], len, fallen);
      KeptVisited(p, q);
      SweepStepKept(p, q, len, fallen);
      SurvivorsKept(p, q, fallen);
    } else if |q| == 1 {
      SweepStepFallenLast(p, q, len, fallen);
    } else {
      SweepFromMatchesSurvivors(p + [q[1]], q[2..], len, fallen);
      SweepStepFallen(p, q, len, fallen);
      SurvivorsFallen(p, q, fallen);
    }
  }

  /** Visiting a kept ball moves it into the visited prefix. */
  lemma KeptVisited(p: seq<BallId>, q: seq<BallId>)
    requires |q| > 0
    ensures (p + [q[0]]) + q[1..] == p + q
  {
  }

  lemma SweepStepKept(p: seq<BallId>, q: seq<BallId>, len: nat, fallen: set<BallId>)
    requires |p| + |q| <= len && |q| > 0 && q[0] !in fallen
    ensures SweepFrom(p + q, |p|, len, fallen) == SweepFrom(p + q, |p| + 1, len, fallen)
  {
    assert (p + q)[|p|] == q[0];
  }

  lemma SurvivorsKept(p: seq<BallId>, q: seq<BallId>, fallen: set<BallId>)
    requires |q| > 0 && q[0] !in fallen
    ensures p + Survivors(q, fallen) == (p + [q[0]]) + Survivors(q[1..], fallen)
  {
  }

  /** Splicing out a fallen ball that has a neighbour leaves the neighbour
      at the next position to visit's left, that is, passed over. */
  lemma SweepStepFallen(p: seq<BallId>, q: seq<BallId>, len: nat, fallen: set<BallId>)
    requires |p| + |q| <= len && |q| > 1 && q[0] in fallen
    ensures SweepFrom(p + q, |p|, len, fallen) == SweepFrom((p + [q[1]]) + q[2..], |p| + 1, len, fallen)
  {
    var a := p + q;
    assert a[|p|] == q[0];
    assert a[..|p|] + a[|p| + 1..] == (p + [q[1]]) + q[2..];
  }

  lemma SurvivorsFallen(p: seq<BallId>, q: seq<BallId>, fallen: set<BallId>)
    requires |q| > 1 && q[0] in fallen
    ensures p + Survivors(q, fallen) == (p + [q[1]]) + Survivors(q[2..], fallen)
  {
  }

  lemma SweepStepFallenLast(p: seq<BallId>, q: seq<BallId>, len: nat, fallen: set<BallId>)
    requires |p| + |q| <= len && |q| == 1 && q[0] in fallen
    ensures SweepFrom(p + q, |p|, len, fallen) == p + Survivors(q, fallen)
  {
    var a := p + q;
    assert a[|p|] == q[0];
    assert a[..|p|] + a[|p| + 1..] == p;
  }

  lemma EmptyPrefix(a: seq<BallId>, b: seq<BallId>)
    ensures [] + a == a && [] + b == b
  {
  }

  /** A whole pass leaves exactly the reference survivors, in order. */
  lemma SweepMatchesSurvivors(a: seq<BallId>, fallen: set<BallId>)
    ensures Sweep(a, fallen) == Survivors(a, fallen)
  {
    var none: seq<BallId> := [];
    SweepFromMatchesSurvivors(none, a, |a|, fallen);
    EmptyPrefix(a, Survivors(a, fallen));
  }

  /** A sweep only removes fallen balls, keeps every ball that has not
      fallen, and never duplicates one. */
  lemma SweepIsSound(a: seq<BallId>, fallen: set<BallId>)
    ensures multiset(Sweep(a, fallen)) <= multiset(a)
    ensures forall x :: x !in fallen ==> multiset(Sweep(a, fallen))[x] == multiset(a)[x]
    ensures forall x :: x in a && x !in Sweep(a, fallen) ==> x in fallen
    ensures forall x :: x in a && x !in fallen ==> x in Sweep(a, fallen)
    ensures forall x :: x in Sweep(a, fallen) ==> x in a
    ensures Distinct(a) ==> Distinct(Sweep(a, fallen))
  {
    SweepMatchesSurvivors(a, fallen);
    SurvivorsShrink(a, fallen);
    SurvivorsKeepStanding(a, fallen);
    var r: seq<BallId> := Sweep(a, fallen);
    forall x | x in a && x !in r
      ensures x in fallen
    {
      assert multiset(a)[x] > 0 && multiset(r)[x] == 0;
    }
    forall x | x in r
      ensures x in a
    {
      assert multiset(r)[x] > 0;
    }
  }

  lemma {:induction false} SweepFromProgress(a: seq<BallId>, k: nat, len: nat, fallen: set<BallId>)
    requires |a| <= len
    requires exists j :: k <= j < |a| && a[j] in fallen
    ensures |SweepFrom(a, k, len, fallen)| < |a|
    decreases |a| - k
  {
    if a[k] !in fallen {
      var j :| k <= j < |a| && a[j] in fallen;
      assert j > k;
      SweepFromProgress(a, k + 1, len, fallen);
    }
  }

  /** If any ball in flight has fallen, a sweep removes at least one: the
      first fallen ball is always visited. */
  lemma SweepRemovesSome(a: seq<BallId>, fallen: set<BallId>)
    requires !NoneFallen(a, fallen)
    ensures |Sweep(a, fallen)| < |a|
  {
    SweepFromProgress(a, 0, |a|, fallen);
  }

  /** Two adjacent fallen balls: the second slides into the first one's
      position and survives this pass. */
  lemma SweepSkipsNeighbour()
    ensures Sweep([0, 1], {0, 1}) == [1]
  {
    var fallen: set<BallId> := {0, 1};
    assert [0, 1][..0] + [0, 1][1..] == [1];
    assert SweepFrom([0, 1], 0, 2, fallen) == SweepFrom([1], 1, 2, fallen);
    assert SweepFrom([1], 1, 2, fallen) == SweepFrom([1], 2, 2, fallen) == [1];
  }

  /** `n` consecutive sweeps with the same fallen balls. */
  function SweepTimes(a: seq<BallId>, fallen: set<BallId>, n: nat): seq<BallId>
    decreases n
  {
    if n == 0 then a else SweepTimes(Sweep(a, fallen), fallen, n - 1)
  }

  /** As many sweeps as there are balls in flight leave no fallen ball behind. */
  lemma {:induction false} SweepsClearFallen(a: seq<BallId>, fallen: set<BallId>, n: nat)
    requires NoneFallen(a, fallen) || n >= |a|
    ensures NoneFallen(SweepTimes(a, fallen, n), fallen)
    decreases n
  {
    if n > 0 {
      var b := Sweep(a, fallen);
      SweepIsSound(a, fallen);
      if !NoneFallen(a, fallen) {
        SweepRemovesSome(a, fallen);
      } else {
        forall i | 0 <= i < |b|
          ensures b[i] !in fallen
        {
          assert b[i] in b;
        }
      }
      SweepsClearFallen(b, fallen, n - 1);
    }
  }
}

=== FILE: Labels.dfy ===
/** Body labels: the string tags the collision handler classifies bodies by.
    Bins are labelled `bin_` followed by the decimal index; balls `ball`;
    pegs `peg`. */
module Labels {
  import opened Wrappers

  const BinPrefix: string := "bin_"
  const BallLabel: string := "ball"
  const PegLabel: string := "peg"

  predicate IsDigit(c: char) {
    '0' <= c <= '9'
  }

  predicate AllDigits(s: string) {
    forall k :: 0 <= k < |s| ==> IsDigit(s[k])
  }

  function DigitChar(d: nat): (c: char)
    requires d < 10
    ensures IsDigit(c)
  {
    (48 + d) as char
  }

  function DigitValue(c: char): (d: nat)
    requires IsDigit(c)
    ensures d < 10
    ensures DigitChar(d) == c
  {
    c as int - 48
  }

  /** Decimal rendering of a natural number, as a template literal shows it:
      at least one digit and no leading zero. */
  function DecimalString(n: nat): (s: string)
    ensures |s| >= 1
    ensures AllDigits(s)
    ensures |s| > 1 ==> s[0] != '0'
    ensures n < 10 <==> |s| == 1
  {
    if n < 10 then [DigitChar(n)] else DecimalString(n / 10) + [DigitChar(n % 10)]
  }

  /** Reads a string of decimal digits back as a number. */
  function ParseDecimal(s: string): nat
    requires AllDigits(s)
  {
    if |s| == 0 then 0 else ParseDecimal(s[..|s| - 1]) * 10 + DigitValue(s[|s| - 1])
  }

  /** Reading back the decimal rendering gives the number rendered. */
  lemma {:induction false} ParseDecimalString(n: nat)
    ensures ParseDecimal(DecimalString(n)) == n
  {
    var s := DecimalString(n);
    if n >= 10 {
      ParseDecimalString(n / 10);
      assert s[..|s| - 1] == DecimalString(n / 10);
      assert DigitValue(s[|s| - 1]) == n % 10;
    }
  }

  /** `bin_${i}`. */
  function BinLabel(i: nat): (l: string)
    ensures |l| > |BinPrefix| && l[..|BinPrefix|] == BinPrefix
  {
    BinPrefix + DecimalString(i)
  }

  /** `label.startsWith("bin_")`. */
  predicate IsBinLabel(tag: string) {
    |tag| >= |BinPrefix| && tag[..|BinPrefix|] == BinPrefix
  }

  /** The bin index a label names, if it has the bin prefix followed by digits. */
  function BinIndex(tag: string): (r: Option<nat>)
    ensures r.Some? ==> IsBinLabel(tag)
  {
    if IsBinLabel(tag) && |tag| > |BinPrefix| && AllDigits(tag[|BinPrefix|..])
    then Some(ParseDecimal(tag[|BinPrefix|..]))
    else None
  }

  /** Every bin label is recognised as one, names its own index, and is neither
      the ball label nor the peg label. */
  lemma BinLabelRoundTrip(i: nat)
    ensures IsBinLabel(BinLabel(i))
    ensures BinIndex(BinLabel(i)) == Some(i)
    ensures BinLabel(i) != BallLabel && BinLabel(i) != PegLabel
  {
    var l := BinLabel(i);
    assert l[|BinPrefix|..] == DecimalString(i);
    ParseDecimalString(i);
    assert l[1] == 'i' && BallLabel[1] == 'a';
  }

  /** Distinct bins carry distinct labels. */
  lemma BinLabelInjective(i: nat, j: nat)
    ensures BinLabel(i) == BinLabel(j) <==> i == j
  {
    BinLabelRoundTrip(i);
    BinLabelRoundTrip(j);
  }

  /** Neither the ball tag nor the peg tag has the bin prefix, so the
      three classifications of the collision handler are exclusive. */
  lemma LabelsAreExclusive()
    ensures !IsBinLabel(BallLabel) && !IsBinLabel(PegLabel)
    ensures BallLabel != PegLabel
  {
    assert BallLabel[1] != BinPrefix[1];
  }
}

=== FILE: Layout.dfy ===
/** Board layout (`createGame`): peg rows, bins and pyramid bounds as a pure
    function of the pyramid height and the canvas size.  Coordinates are
    stated over `real`; the physics bodies built from them are not modelled. */
module Layout {
  import opened Wrappers
  import Multipliers
  import Labels

  datatype Point = Point(x: real, y: real)

  /** A scoring bin: its label, payout multiplier, centre and size. */
  datatype Bin = Bin(tag: string, multiplier: int, x: real, y: real, width: real, height: real)

  datatype Bounds = Bounds(top: real, bottom: real, left: real, right: real)

  /** Everything `createGame` records: radii, peg positions row by row
      (top to bottom, left to right), the bins and the pyramid bounds. */
  datatype Board = Board(ballRadius: real, pegRadius: real, pegs: seq<seq<Point>>,
                         bins: seq<Bin>, bounds: Bounds)

  /** `createGame` throws when there is no bottom row to read the bounds from. */
  datatype LayoutError = MissingBottomRow

  /** The sizes derived from the height and the canvas before any body is placed. */
  datatype Metrics = Metrics(ballRadius: real, pegRadius: real,
                             verticalSpacing: real, horizontalSpacing: real)

  function Min(a: real, b: real): (m: real)
    ensures m <= a && m <= b
    ensures m == a || m == b
  {
    if a <= b then a else b
  }

  function Max(a: real, b: real): (m: real)
    ensures m >= a && m >= b
    ensures m == a || m == b
  {
    if a >= b then a else b
  }

  /** The playing area is 80% of the canvas; the ball radius is the smaller of
      the two fits, pegs have half that radius and sit six peg radii apart. */
  function MetricsFor(h: nat, width: real, height: real): (m: Metrics)
    requires h >= 1
    ensures width >= 0.0 && height >= 0.0 ==> m.horizontalSpacing >= 0.0
    ensures m.pegRadius * 2.0 == m.ballRadius && m.horizontalSpacing == 3.0 * m.ballRadius
    ensures width > 0.0 && height > 0.0 ==> 0.0 < m.pegRadius < m.ballRadius
    ensures m.verticalSpacing * ((h + 1) as real) == height * 0.8
    ensures m.ballRadius * ((h * 3) as real) <= width * 0.8
    ensures m.ballRadius * ((h * 4) as real) <= height * 0.8
    ensures m.ballRadius * ((h * 3) as real) == width * 0.8
            || m.ballRadius * ((h * 4) as real) == height * 0.8
  {
    FitsArea(width * 0.8, height * 0.8, (h * 3) as real, (h * 4) as real);
    var gameWidth := width * 0.8;
    var gameHeight := height * 0.8;
    var ballRadius := Min(gameWidth / ((h * 3) as real), gameHeight / ((h * 4) as real));
    var pegRadius := ballRadius * 0.5;
    Metrics(ballRadius, pegRadius, gameHeight / ((h + 1) as real), pegRadius * 6.0)
  }

  /** The smaller of the two quotients, scaled back by its divisors, stays
      within both areas and fills one of them. */
  lemma FitsArea(w: real, g: real, cw: real, cg: real)
    requires cw > 0.0 && cg > 0.0
    ensures Min(w / cw, g / cg) * cw <= w && Min(w / cw, g / cg) * cg <= g
    ensures Min(w / cw, g / cg) * cw == w || Min(w / cw, g / cg) * cg == g
  {
    var r := Min(w / cw, g / cg);
    MulLessEq(r, w / cw, cw);
    MulLessEq(r, g / cg, cg);
  }

  lemma MulLessEq(a: real, b: real, c: real)
    requires a <= b && c > 0.0
    ensures a * c <= b * c
  {
  }

  function PegsInRow(row: nat): nat {
    row + 2
  }

  /** Distance from the first to the last peg of a row. */
  function RowWidth(row: nat, spacing: real): real {
    ((PegsInRow(row) - 1) as real) * spacing
  }

  function RowY(row: nat, m: Metrics, height: real): real {
    height * 0.1 + (row as real) * m.verticalSpacing
  }

  /** The x of peg `i` of a row: the row starts half its width left of the
      canvas centre. */
  function PegX(row: nat, i: nat, m: Metrics, width: real): real {
    (width - RowWidth(row, m.horizontalSpacing)) / 2.0 + (i as real) * m.horizontalSpacing
  }

  /** Neighbouring x's of a row are one spacing apart, and x's at mirrored
      positions add up to the canvas width. */
  lemma PegXSpacedAndMirrored(row: nat, m: Metrics, width: real)
    ensures forall k :: 0 <= k < row + 1 ==>
              PegX(row, k + 1, m, width) - PegX(row, k, m, width) == m.horizontalSpacing
    ensures forall k :: 0 <= k < row + 2 ==>
              PegX(row, k, m, width) + PegX(row, row + 1 - k, m, width) == width
  {
    forall k | 0 <= k < row + 1
      ensures PegX(row, k + 1, m, width) - PegX(row, k, m, width) == m.horizontalSpacing
    {
      MulStep(k, m.horizontalSpacing);
    }
    forall k | 0 <= k < row + 2
      ensures PegX(row, k, m, width) + PegX(row, row + 1 - k, m, width) == width
    {
      MulSplit(k, row + 1 - k, m.horizontalSpacing);
    }
  }

  /** The pegs of one row: `row + 2` of them on one horizontal line at the
      row's height, `horizontalSpacing` apart and mirror-symmetric about the
      vertical centre line of the canvas. */
  function PegRow(row: nat, m: Metrics, width: real, height: real): (pegs: seq<Point>)
    ensures |pegs| == PegsInRow(row)
    ensures forall i :: 0 <= i < |pegs| ==> pegs[i].y == RowY(row, m, height)
    ensures forall k :: 0 <= k < |pegs| - 1 ==> pegs[k + 1].x - pegs[k].x == m.horizontalSpacing
    ensures forall k :: 0 <= k < |pegs| ==> pegs[k].x + pegs[|pegs| - 1 - k].x == width
  {
    PegXSpacedAndMirrored(row, m, width);
    seq(PegsInRow(row), i requires 0 <= i < PegsInRow(row) =>
      Point(PegX(row, i, m, width), RowY(row, m, height)))
  }

  /** The running `Math.max(maxRowWidth, rowWidth)` over the first `rows` rows,
      starting from 0. */
  function MaxRowWidth(rows: nat, spacing: real): real {
    if rows == 0 then 0.0 else Max(MaxRowWidth(rows - 1, spacing), RowWidth(rows - 1, spacing))
  }

  function BinHeight(height: real): real {
    height * 0.1
  }

  function BinY(height: real): real {
    height - BinHeight(height) / 2.0
  }

  /** The x of bin `i`: bins are one spacing wide, starting from where the
      widest row starts. */
  function BinX(i: nat, m: Metrics, width: real, maxRowWidth: real): real {
    (width - maxRowWidth) / 2.0 + m.horizontalSpacing * (i as real)
  }

  function BinAt(i: nat, h: nat, m: Metrics, width: real, height: real, maxRowWidth: real): Bin {
    Bin(Labels.BinLabel(i), Multipliers.Multiplier(i, h), BinX(i, m, width, maxRowWidth),
        BinY(height), m.horizontalSpacing, BinHeight(height))
  }

  /** The board `createGame` lays out for height `h` once the metrics are known. */
  function BuildBoard(h: nat, m: Metrics, width: real, height: real): (b: Board)
    requires h >= 1
    ensures |b.pegs| == h && |b.bins| == h + 1
    ensures forall row :: 0 <= row < h ==> b.pegs[row] == PegRow(row, m, width, height)
    ensures forall i :: 0 <= i <= h ==>
              b.bins[i] == BinAt(i, h, m, width, height, MaxRowWidth(h, m.horizontalSpacing))
  {
    var pegs := seq(h, row requires 0 <= row < h => PegRow(row, m, width, height));
    var maxRowWidth := MaxRowWidth(h, m.horizontalSpacing);
    var bins := seq(h + 1, i requires 0 <= i <= h => BinAt(i, h, m, width, height, maxRowWidth));
    var bottomRow := pegs[h - 1];
    var bounds := Bounds(height * 0.1, BinY(height) - BinHeight(height) / 2.0,
                         bottomRow[0].x, bottomRow[|bottomRow| - 1].x);
    Board(m.ballRadius, m.pegRadius, pegs, bins, bounds)
  }

  /** `createGame(h)` on a `width` x `height` canvas.  A height below one has
      no bottom row, and the source fails reading its first peg. */
  function CreateGame(h: int, width: real, height: real): (r: Result<Board, LayoutError>)
    ensures r.Failure? <==> h < 1
    ensures r.Success? ==>
              && |r.value.pegs| == h
              && (forall row :: 0 <= row < h ==> |r.value.pegs[row]| == row + 2)
    ensures r.Success? ==>
              && |r.value.bins| == h + 1
              && (forall i :: 0 <= i <= h ==>
                    && r.value.bins[i].tag == Labels.BinLabel(i)
                    && r.value.bins[i].multiplier == Multipliers.Multiplier(i, h))
    ensures r.Success? ==> r.value.bounds.top == height * 0.1 && r.value.bounds.bottom == height * 0.9
  {
    if h < 1 then Failure(MissingBottomRow)
    else Success(BuildBoard(h, MetricsFor(h, width, height), width, height))
  }

  /** The pyramid's left and right bounds are the first and last pegs of the
      bottom row, on any canvas. */
  lemma CreateGameParts(h: int, width: real, height: real)
    requires h >= 1
    ensures var b := CreateGame(h, width, height).value;
            b.bounds.left == b.pegs[h - 1][0].x && b.bounds.right == b.pegs[h - 1][h].x
  {
  }

  /** Total number of pegs over all rows. */
  function CountPegs(rows: seq<seq<Point>>): nat {
    if |rows| == 0 then 0 else CountPegs(rows[..|rows| - 1]) + |rows[|rows| - 1]|
  }

  lemma {:induction false} CountPegsOfPyramid(rows: seq<seq<Point>>)
    requires forall r :: 0 <= r < |rows| ==> |rows[r]| == PegsInRow(r)
    ensures 2 * CountPegs(rows) == |rows| * (|rows| + 3)
  {
    var n := |rows|;
    if n > 0 {
      CountPegsOfPyramid(rows[..n - 1]);
      assert 2 * CountPegs(rows[..n - 1]) == (n - 1) * (n + 2);
      assert 2 * CountPegs(rows) == (n - 1) * (n + 2) + 2 * (n + 1);
    }
  }

  /** A pyramid of height `h` holds h(h+3)/2 pegs. */
  lemma TotalPegs(h: int, width: real, height: real)
    requires h >= 1
    ensures CountPegs(CreateGame(h, width, height).value.pegs) == h * (h + 3) / 2
  {
    CountPegsOfPyramid(CreateGame(h, width, height).value.pegs);
  }

  lemma {:induction false} MaxRowWidthNonNegativeSpacing(rows: nat, spacing: real)
    requires rows >= 1 && spacing >= 0.0
    ensures MaxRowWidth(rows, spacing) == RowWidth(rows - 1, spacing)
  {
    if rows > 1 {
      MaxRowWidthNonNegativeSpacing(rows - 1, spacing);
      assert RowWidth(rows - 1, spacing) - RowWidth(rows - 2, spacing) == spacing;
    }
  }

  lemma {:induction false} MaxRowWidthNegativeSpacing(rows: nat, spacing: real)
    requires spacing < 0.0
    ensures MaxRowWidth(rows, spacing) == 0.0
  {
    if rows > 0 {
      MaxRowWidthNegativeSpacing(rows - 1, spacing);
      assert RowWidth(rows - 1, spacing) < 0.0;
    }
  }

  /** The running maximum ends at the bottom row's width exactly when the
      spacing is not negative (widths grow with the row index). */
  lemma MaxRowWidthIsBottomRow(rows: nat, spacing: real)
    requires rows >= 1
    ensures MaxRowWidth(rows, spacing) == RowWidth(rows - 1, spacing) <==> spacing >= 0.0
  {
    if spacing >= 0.0 {
      MaxRowWidthNonNegativeSpacing(rows, spacing);
    } else {
      MaxRowWidthNegativeSpacing(rows, spacing);
      assert RowWidth(rows - 1, spacing) < 0.0;
    }
  }

  lemma MulStep(i: nat, s: real)
    ensures ((i + 1) as real) * s == (i as real) * s + s
    ensures s * ((i + 1) as real) == s * (i as real) + s
  {
  }

  lemma MulSplit(a: nat, b: nat, s: real)
    ensures (a as real) * s + (b as real) * s == ((a + b) as real) * s
  {
  }

  /** Neighbouring pegs of a row are one horizontal spacing apart on one line. */
  lemma PegSpacing(h: int, width: real, height: real, row: nat, k: nat)
    requires h >= 1 && row < h && k + 1 < row + 2
    ensures var m := MetricsFor(h, width, height);
            var p := CreateGame(h, width, height).value.pegs[row];
            p[k + 1].x - p[k].x == m.horizontalSpacing && p[k + 1].y == p[k].y
  {
    var m := MetricsFor(h, width, height);
    MulStep(k, m.horizontalSpacing);
    assert PegX(row, k + 1, m, width) - PegX(row, k, m, width) == m.horizontalSpacing;
  }

  /** Peg `k` and peg `n-1-k` of a row of `n` pegs are mirror images about the
      vertical centre line of the canvas. */
  lemma PegRowMirrored(h: int, width: real, height: real, row: nat, k: nat)
    requires h >= 1 && row < h && k < row + 2
    ensures var p := CreateGame(h, width, height).value.pegs[row];
            p[k].x + p[row + 1 - k].x == width && p[k].y == p[row + 1 - k].y
  {
    var m := MetricsFor(h, width, height);
    MulSplit(k, row + 1 - k, m.horizontalSpacing);
    assert PegX(row, k, m, width) + PegX(row, row + 1 - k, m, width) == width;
  }

  lemma BinCentreUnderPeg(i: nat, h: nat, m: Metrics, width: real)
    requires h >= 1 && m.horizontalSpacing >= 0.0
    ensures BinX(i, m, width, MaxRowWidth(h, m.horizontalSpacing)) == PegX(h - 1, i, m, width)
  {
    MaxRowWidthNonNegativeSpacing(h, m.horizontalSpacing);
  }

  lemma BuiltBinsUnderBottomRow(h: nat, m: Metrics, width: real, height: real, i: nat)
    requires h >= 1 && i <= h && m.horizontalSpacing >= 0.0
    ensures var b := BuildBoard(h, m, width, height);
            b.bins[i].x == b.pegs[h - 1][i].x
  {
    BinCentreUnderPeg(i, h, m, width);
  }

  /** Bin `i` is centred under peg `i` of the bottom row, for any canvas of
      non-negative size. */
  lemma BinsUnderBottomRow(h: int, width: real, height: real)
    requires h >= 1 && width >= 0.0 && height >= 0.0
    ensures var b := CreateGame(h, width, height).value;
            forall i :: 0 <= i <= h ==> b.bins[i].x == b.pegs[h - 1][i].x
  {
    var m := MetricsFor(h, width, height);
    forall i | 0 <= i <= h
      ensures BuildBoard(h, m, width, height).bins[i].x == BuildBoard(h, m, width, height).pegs[h - 1][i].x
    {
      BuiltBinsUnderBottomRow(h, m, width, height, i);
    }
  }

  /** The pyramid's left and right bounds are the centres of the outermost bins. */
  lemma BoundsAreOuterBins(h: int, width: real, height: real)
    requires h >= 1 && width >= 0.0 && height >= 0.0
    ensures var b := CreateGame(h, width, height).value;
            b.bounds.left == b.bins[0].x && b.bounds.right == b.bins[h].x
  {
    var m := MetricsFor(h, width, height);
    BuiltBinsUnderBottomRow(h, m, width, height, 0);
    BuiltBinsUnderBottomRow(h, m, width, height, h);
  }

  lemma BuiltBinsContiguous(h: nat, m: Metrics, width: real, height: real, i: nat)
    requires h >= 1 && i < h
    ensures var b := BuildBoard(h, m, width, height);
            b.bins[i + 1].x - b.bins[i].x == b.bins[i].width
  {
    var maxRowWidth := MaxRowWidth(h, m.horizontalSpacing);
    MulStep(i, m.horizontalSpacing);
    assert BinX(i + 1, m, width, maxRowWidth) - BinX(i, m, width, maxRowWidth) == m.horizontalSpacing;
  }

  /** Bins sit edge to edge: each centre is one bin width past the previous one. */
  lemma BinsContiguous(h: int, width: real, height: real, i: nat)
    requires h >= 1 && i < h
    ensures var b := CreateGame(h, width, height).value;
            b.bins[i + 1].x - b.bins[i].x == b.bins[i].width
  {
    BuiltBinsContiguous(h, MetricsFor(h, width, height), width, height, i);
  }

  lemma MulLess(a: real, b: real, c: real)
    requires a < b && c > 0.0
    ensures a * c < b * c
  {
  }

  lemma RowYBetweenBounds(r: nat, h: nat, m: Metrics, height: real)
    requires r < h && m.verticalSpacing > 0.0
    requires m.verticalSpacing * ((h + 1) as real) == height * 0.8
    ensures height * 0.1 <= RowY(r, m, height) < height * 0.9
    ensures RowY(r, m, height) < RowY(r + 1, m, height)
  {
    var v := m.verticalSpacing;
    MulLess(r as real, (h + 1) as real, v);
    MulLess(r as real, (r + 1) as real, v);
    assert 0.0 <= (r as real) * v;
  }

  lemma BuiltRowsDescend(h: nat, m: Metrics, width: real, height: real)
    requires h >= 1 && m.verticalSpacing > 0.0
    requires m.verticalSpacing * ((h + 1) as real) == height * 0.8
    ensures var b := BuildBoard(h, m, width, height);
            && (forall r :: 0 <= r < h - 1 ==> b.pegs[r][0].y < b.pegs[r + 1][0].y)
            && (forall r, k :: 0 <= r < h && 0 <= k < |b.pegs[r]| ==>
                  b.bounds.top <= b.pegs[r][k].y < b.bounds.bottom)
  {
    var b := BuildBoard(h, m, width, height);
    assert b.bounds.top == height * 0.1 && b.bounds.bottom == height * 0.9;
    forall r | 0 <= r < h - 1
      ensures b.pegs[r][0].y < b.pegs[r + 1][0].y
    {
      RowYBetweenBounds(r, h, m, height);
      assert b.pegs[r][0].y == RowY(r, m, height);
      assert b.pegs[r + 1][0].y == RowY(r + 1, m, height);
    }
    forall r, k | 0 <= r < h && 0 <= k < |b.pegs[r]|
      ensures b.bounds.top <= b.pegs[r][k].y < b.bounds.bottom
    {
      RowYBetweenBounds(r, h, m, height);
      assert b.pegs[r][k].y == RowY(r, m, height);
    }
  }

  /** On a canvas of positive height the peg rows go strictly downwards and all
      lie between the pyramid's top and bottom bounds. */
  lemma RowsDescend(h: int, width: real, height: real)
    requires h >= 1 && height > 0.0
    ensures var b := CreateGame(h, width, height).value;
            && (forall r :: 0 <= r < h - 1 ==> b.pegs[r][0].y < b.pegs[r + 1][0].y)
            && (forall r, k :: 0 <= r < h && 0 <= k < |b.pegs[r]| ==>
                  b.bounds.top <= b.pegs[r][k].y < b.bounds.bottom)
  {
    var m := MetricsFor(h, width, height);
    assert m.verticalSpacing > 0.0 by {
      assert m.verticalSpacing * ((h + 1) as real) == height * 0.8;
    }
    BuiltRowsDescend(h, m, width, height);
  }
}

=== FILE: Multipliers.dfy ===
/** The payout multiplier table of the board (`calculateMultiplier`). */
module Multipliers {

  /** Absolute value of an integer, as `Math.abs` computes it on integers. */
  function Abs(x: int): (r: nat)
    ensures r == x || r == -x
    ensures x >= 0 ==> r == x
  {
    if x < 0 then -x else x
  }

  /** `Math.floor(totalBins / 2)`.  Dafny's `/` by a positive divisor rounds
      towards negative infinity, which is exactly what `Math.floor` does. */
  function MiddleBin(totalBins: int): (mid: int)
    ensures 2 * mid <= totalBins < 2 * mid + 2
  {
    totalBins / 2
  }

  /** The multiplier of bin `binIndex` when the caller passes `totalBins`:
      one at the middle bin, one more for every step away from it. */
  function Multiplier(binIndex: int, totalBins: int): (m: int)
    ensures m >= 1
    ensures m == 1 <==> binIndex == MiddleBin(totalBins)
  {
    Abs(binIndex - MiddleBin(totalBins)) + 1
  }

  /** Moving one bin away from the middle raises the multiplier by exactly one,
      on either side. */
  lemma MultiplierGrowsAwayFromMiddle(binIndex: int, totalBins: int)
    ensures binIndex >= MiddleBin(totalBins) ==>
              Multiplier(binIndex + 1, totalBins) == Multiplier(binIndex, totalBins) + 1
    ensures binIndex <= MiddleBin(totalBins) ==>
              Multiplier(binIndex - 1, totalBins) == Multiplier(binIndex, totalBins) + 1
  {
  }

  /** Two bins pay the same exactly when they are equally far from the middle. */
  lemma MultiplierDependsOnDistance(i: int, j: int, totalBins: int)
    ensures (Multiplier(i, totalBins) == Multiplier(j, totalBins)) <==>
            (Abs(i - MiddleBin(totalBins)) == Abs(j - MiddleBin(totalBins)))
  {
  }

  /** With the call-site argument `totalBins = h` and `h + 1` bins numbered
      `0 .. h`, the table is a mirror image when the height is even. */
  lemma MultiplierSymmetricForEvenHeight(h: nat, i: int)
    requires h % 2 == 0
    requires 0 <= i <= h
    ensures Multiplier(i, h) == Multiplier(h - i, h)
  {
  }

  /** For an odd height the rightmost bin pays one more than the leftmost,
      so the table is not symmetric. */
  lemma MultiplierAsymmetricForOddHeight(h: nat)
    requires h % 2 == 1
    ensures Multiplier(h, h) == Multiplier(0, h) + 1
  {
  }

  /** The height-7 board: bin 0 pays 4, bin 7 pays 5. */
  lemma HeightSevenTable()
    ensures Multiplier(0, 7) == 4 && Multiplier(7, 7) == 5
    ensures Multiplier(3, 7) == 1
  {
  }

  /** With an odd height (an even number of bins) no integer centre would make
      the outermost bins pay alike, whatever count is passed in. */
  lemma OddHeightHasNoSymmetricCentre(h: nat, centre: int)
    requires h % 2 == 1
    ensures Abs(0 - centre) != Abs(h - centre)
  {
  }
}

=== FILE: Session.dfy ===
/** The wagering session: `balance`, `betAmount`, `ballCount`, the balls in
    flight and the spawns scheduled by `dropBalls` that have not fired yet.
    Every operation returns the next session together with the alerts it
    shows and the balance movements it makes. */
module Session {
  import opened Wrappers
  import Labels
  import InFlight

  type BallId = InFlight.BallId

  /** The balance the page starts with, also hard-coded in the round report. */
  const InitialBalance: int := 1000

  datatype Session = Session(balance: int, betAmount: int, ballCount: int,
                             activeBalls: seq<BallId>, pending: nat, nextBall: BallId)

  /** The state on page load: balance 1000, bet 10, one ball, nothing in flight. */
  function Initial(): (s: Session)
    ensures s.balance == InitialBalance && s.betAmount == 10 && s.ballCount == 1
    ensures s.activeBalls == [] && s.pending == 0
  {
    Session(InitialBalance, 10, 1, [], 0, 0)
  }

  /** A physics body as the collision handler sees it: its label, identity
      and (for bins) its multiplier. */
  datatype Body = Body(tag: string, id: nat, multiplier: int)

  datatype Pair = Pair(bodyA: Body, bodyB: Body)

  /** The alerts the page raises. */
  datatype Notice = InsufficientBalance | AllLanded(totalWinnings: int)

  /** One movement of the balance. */
  datatype Entry = Debit(amount: int) | Credit(amount: int)

  datatype Step = Step(next: Session, notices: seq<Notice>, ledger: seq<Entry>)

  function Signed(e: Entry): int {
    match e
    case Debit(a) => -a
    case Credit(a) => a
  }

  /** The net effect of a list of balance movements. */
  function Net(ledger: seq<Entry>): int {
    if |ledger| == 0 then 0 else Signed(ledger[0]) + Net(ledger[1..])
  }

  lemma {:induction false} NetAppend(a: seq<Entry>, b: seq<Entry>)
    ensures Net(a + b) == Net(a) + Net(b)
  {
    if |a| == 0 {
      assert a + b == b;
    } else {
      assert (a + b)[1..] == a[1..] + b;
      NetAppend(a[1..], b);
    }
  }

  /** Balls in flight are distinct and were all spawned before. */
  predicate Valid(s: Session) {
    && InFlight.Distinct(s.activeBalls)
    && forall x :: x in s.activeBalls ==> x < s.nextBall
  }

  /** The number of spawns `for (let i = 0; i < ballCount; i++)` schedules. */
  function Scheduled(count: int): (n: nat)
    ensures count >= 0 ==> n == count
    ensures count < 0 ==> n == 0
  {
    if count > 0 then count else 0
  }

  /** `dropBalls` with already-parsed inputs.  The bet and count are stored
      first; a total stake above the balance raises the alert and changes
      nothing else; otherwise the stake is debited at once and one spawn per
      ball is scheduled. */
  function Drop(s: Session, bet: int, count: int): (r: Step)
    ensures r.next.betAmount == bet && r.next.ballCount == count
    ensures r.next.activeBalls == s.activeBalls && r.next.nextBall == s.nextBall
    ensures bet * count > s.balance <==> InsufficientBalance in r.notices
    ensures bet * count > s.balance ==>
              r.notices == [InsufficientBalance] &&
              r.next.balance == s.balance && r.next.pending == s.pending && r.ledger == []
    ensures bet * count <= s.balance ==>
              && r.notices == []
              && r.next.balance == s.balance - bet * count
              && r.next.pending == s.pending + Scheduled(count)
              && r.ledger == [Debit(bet * count)]
    ensures r.next.balance == s.balance + Net(r.ledger)
    ensures s.balance >= 0 && bet >= 0 && count >= 0 ==> r.next.balance >= 0
    ensures Valid(s) ==> Valid(r.next)
  {
    var stored := s.(betAmount := bet, ballCount := count);
    var total := bet * count;
    if total > s.balance then Step(stored, [InsufficientBalance], [])
    else Step(stored.(balance := s.balance - total, pending := s.pending + Scheduled(count)),
              [], [Debit(total)])
  }

  /** A scheduled spawn fires: a fresh ball joins the balls in flight.  With
      nothing scheduled there is no timer to fire and nothing changes. */
  function Spawn(s: Session): (r: Step)
    ensures s.pending == 0 ==> r.next == s
    ensures s.pending > 0 ==>
              && r.next.activeBalls == s.activeBalls + [s.nextBall]
              && r.next.pending == s.pending - 1
              && r.next.nextBall > s.nextBall
    ensures r.next.balance == s.balance && r.notices == [] && r.ledger == []
    ensures r.next.betAmount == s.betAmount && r.next.ballCount == s.ballCount
    ensures Valid(s) ==> Valid(r.next) && (s.pending > 0 ==> s.nextBall !in s.activeBalls)
  {
    if s.pending == 0 then Step(s, [], [])
    else Step(s.(activeBalls := s.activeBalls + [s.nextBall], pending := s.pending - 1,
                 nextBall := s.nextBall + 1), [], [])
  }

  /** What a colliding pair means to the handler. */
  datatype Contact = Landing(bin: Body, ball: Body) | PegHit(ball: Body) | Ignored

  /** The bin, ball and peg of a pair are each looked for in `bodyA` first,
      then in `bodyB`; a landing needs a bin and a ball, a peg hit a ball
      and a peg. */
  function Classify(p: Pair): (c: Contact)
    ensures c.Landing? ==> Labels.IsBinLabel(c.bin.tag) && c.ball.tag == Labels.BallLabel
    ensures c.Landing? ==> c.bin in {p.bodyA, p.bodyB} && c.ball in {p.bodyA, p.bodyB}
    ensures c.PegHit? ==> c.ball.tag == Labels.BallLabel
    ensures (Labels.IsBinLabel(p.bodyA.tag) && p.bodyB.tag == Labels.BallLabel) ==>
              c == Landing(p.bodyA, p.bodyB)
    ensures (p.bodyA.tag == Labels.BallLabel && Labels.IsBinLabel(p.bodyB.tag)) ==>
              c == Landing(p.bodyB, p.bodyA)
  {
    Labels.LabelsAreExclusive();
    var bin: Option<Body> :=
      if Labels.IsBinLabel(p.bodyA.tag) then Some(p.bodyA)
      else if Labels.IsBinLabel(p.bodyB.tag) then Some(p.bodyB)
      else None;
    var ball: Option<Body> :=
      if p.bodyA.tag == Labels.BallLabel then Some(p.bodyA)
      else if p.bodyB.tag == Labels.BallLabel then Some(p.bodyB)
      else None;
    var peg: Option<Body> :=
      if p.bodyA.tag == Labels.PegLabel then Some(p.bodyA)
      else if p.bodyB.tag == Labels.PegLabel then Some(p.bodyB)
      else None;
    if bin.Some? && ball.Some? then Landing(bin.value, ball.value)
    else if ball.Some? && peg.Some? then PegHit(ball.value)
    else Ignored
  }

  /** The order of the two bodies in a pair does not matter. */
  lemma ClassifyIgnoresOrder(a: Body, b: Body)
    ensures Classify(Pair(a, b)) == Classify(Pair(b, a))
  {
    Labels.LabelsAreExclusive();
  }

  /** The "Total winnings" figure of the final alert: the balance minus what
      it would be right after the drop had the balance been 1000 then. */
  function Report(s: Session): int {
    s.balance - (InitialBalance - s.betAmount * s.ballCount)
  }

  /** One pair of `collisionStart`.  A landing credits the current bet times
      the bin's multiplier (whether or not the ball is still listed), drops
      the ball from the list, and reports once the list is empty.  A peg hit
      only nudges the ball, which the model leaves to the physics; anything
      else is ignored. */
  function Resolve(s: Session, p: Pair): (r: Step)
    ensures r.next.betAmount == s.betAmount && r.next.ballCount == s.ballCount
    ensures r.next.pending == s.pending && r.next.nextBall == s.nextBall
    ensures r.next.balance == s.balance + Net(r.ledger)
    ensures !Classify(p).Landing? ==> r.next == s && r.notices == [] && r.ledger == []
    ensures Classify(p).Landing? ==>
              var ball := Classify(p).ball.id;
              && r.ledger == [Credit(s.betAmount * Classify(p).bin.multiplier)]
              && (Valid(s) ==> ball !in r.next.activeBalls)
              && (ball in s.activeBalls ==> |r.next.activeBalls| == |s.activeBalls| - 1)
              && (forall x :: x in s.activeBalls && x != ball ==> x in r.next.activeBalls)
              && (forall x :: x in r.next.activeBalls ==> x in s.activeBalls)
    ensures Classify(p).Landing? ==>
              r.next.activeBalls == InFlight.RemoveFirst(s.activeBalls, Classify(p).ball.id)
    ensures Classify(p).Landing? ==>
              r.notices == (if r.next.activeBalls == [] then [AllLanded(Report(r.next))] else [])
    ensures Valid(s) ==> Valid(r.next)
  {
    match Classify(p)
    case Landing(bin, ball) => Land(s, bin, ball.id)
    case _ => Step(s, [], [])
  }

  /** A ball landing in `bin`: credit, removal from the list, and the report
      once the list is empty. */
  function Land(s: Session, bin: Body, ball: BallId): (r: Step)
    ensures r.next.betAmount == s.betAmount && r.next.ballCount == s.ballCount
    ensures r.next.pending == s.pending && r.next.nextBall == s.nextBall
    ensures r.next.balance == s.balance + Net(r.ledger)
    ensures r.ledger == [Credit(s.betAmount * bin.multiplier)]
    ensures Valid(s) ==> ball !in r.next.activeBalls
    ensures ball in s.activeBalls ==> |r.next.activeBalls| == |s.activeBalls| - 1
    ensures forall x :: x in s.activeBalls && x != ball ==> x in r.next.activeBalls
    ensures forall x :: x in r.next.activeBalls ==> x in s.activeBalls
    ensures r.next.activeBalls == InFlight.RemoveFirst(s.activeBalls, ball)
    ensures r.notices == (if r.next.activeBalls == [] then [AllLanded(Report(r.next))] else [])
    ensures Valid(s) ==> Valid(r.next)
  {
    var winnings := s.betAmount * bin.multiplier;
    var active := InFlight.RemoveFirst(s.activeBalls, ball);
    var next := s.(balance := s.balance + winnings, activeBalls := active);
    InFlight.RemoveFirstKeepsDistinct(s.activeBalls, ball);
    Step(next, if active == [] then [AllLanded(Report(next))] else [], [Credit(winnings)])
  }

  /** The multiplier a pair pays out: its bin's, if it is a landing. */
  function LandedMultiplier(p: Pair): int {
    match Classify(p)
    case Landing(bin, _) => bin.multiplier
    case _ => 0
  }

  /** The sum of the bin multipliers of the landings among `pairs`. */
  function LandedMultipliers(pairs: seq<Pair>): int {
    if |pairs| == 0 then 0 else LandedMultiplier(pairs[0]) + LandedMultipliers(pairs[1..])
  }

  /** Two credits in a row add up to one credit of the summed multipliers. */
  lemma ChainCredits(b0: int, b1: int, b2: int, bet: int, m0: int, ms: int)
    requires b1 == b0 + bet * m0 && b2 == b1 + bet * ms
    ensures b2 == b0 + bet * (m0 + ms)
  {
  }

  lemma ResolvePays(s: Session, p: Pair)
    ensures Resolve(s, p).next.balance == s.balance + s.betAmount * LandedMultiplier(p)
  {
  }

  /** A whole `collisionStart` event: the pairs are handled in order.  The
      balance grows by the current bet times the multipliers of all the
      landings, and only through credits. */
  function Collide(s: Session, pairs: seq<Pair>): (r: Step)
    ensures r.next.betAmount == s.betAmount && r.next.ballCount == s.ballCount
    ensures r.next.pending == s.pending && r.next.nextBall == s.nextBall
    ensures r.next.balance == s.balance + s.betAmount * LandedMultipliers(pairs)
    ensures Valid(s) ==> Valid(r.next)
    decreases |pairs|
  {
    if |pairs| == 0 then Step(s, [], [])
    else
      var first := Resolve(s, pairs[0]);
      var rest := Collide(first.next, pairs[1..]);
      ResolvePays(s, pairs[0]);
      ChainCredits(s.balance, first.next.balance, rest.next.balance, s.betAmount,
                   LandedMultiplier(pairs[0]), LandedMultipliers(pairs[1..]));
      Step(rest.next, first.notices + rest.notices, first.ledger + rest.ledger)
  }

  /** Some pair of `pairs` lands ball `x`. */
  predicate LandsIn(pairs: seq<Pair>, x: BallId) {
    exists k :: 0 <= k < |pairs| && Classify(pairs[k]).Landing? && Classify(pairs[k]).ball.id == x
  }

  /** A collision event adds no ball to the list, and removes only balls
      that one of its pairs lands. */
  lemma {:induction false} CollideRemovesOnlyLanded(s: Session, pairs: seq<Pair>)
    ensures var r := Collide(s, pairs);
            && (forall x :: x in r.next.activeBalls ==> x in s.activeBalls)
            && (forall x :: x in s.activeBalls && !LandsIn(pairs, x) ==> x in r.next.activeBalls)
    decreases |pairs|
  {
    if |pairs| > 0 {
      var first := Resolve(s, pairs[0]);
      var r := Collide(s, pairs);
      CollideRemovesOnlyLanded(first.next, pairs[1..]);
      assert r.next == Collide(first.next, pairs[1..]).next;
      forall x | x in s.activeBalls && !LandsIn(pairs, x)
        ensures x in r.next.activeBalls
      {
        assert !(Classify(pairs[0]).Landing? && Classify(pairs[0]).ball.id == x);
        assert x in first.next.activeBalls;
      }
    }
  }

  /** A collision event only ever credits the balance, by exactly what its
      ledger records, and its only alerts are round reports. */
  lemma {:induction false} CollideLedger(s: Session, pairs: seq<Pair>)
    ensures var r := Collide(s, pairs);
            && r.next.balance == s.balance + Net(r.ledger)
            && (forall k :: 0 <= k < |r.ledger| ==> r.ledger[k].Credit?)
            && (forall k :: 0 <= k < |r.notices| ==> r.notices[k].AllLanded?)
    decreases |pairs|
  {
    if |pairs| > 0 {
      var first := Resolve(s, pairs[0]);
      var rest := Collide(first.next, pairs[1..]);
      CollideLedger(first.next, pairs[1..]);
      NetAppend(first.ledger, rest.ledger);
      ResolveCredits(s, pairs[0]);
      JoinCredits(first.ledger, rest.ledger, first.notices, rest.notices);
    }
  }

  /** One pair records at most one credit and at most one round report. */
  lemma ResolveCredits(s: Session, p: Pair)
    ensures var r := Resolve(s, p);
            && (forall k :: 0 <= k < |r.ledger| ==> r.ledger[k].Credit?)
            && (forall k :: 0 <= k < |r.notices| ==> r.notices[k].AllLanded?)
  {
  }

  lemma JoinCredits(l1: seq<Entry>, l2: seq<Entry>, n1: seq<Notice>, n2: seq<Notice>)
    requires forall k :: 0 <= k < |l1| ==> l1[k].Credit?
    requires forall k :: 0 <= k < |l2| ==> l2[k].Credit?
    requires forall k :: 0 <= k < |n1| ==> n1[k].AllLanded?
    requires forall k :: 0 <= k < |n2| ==> n2[k].AllLanded?
    ensures forall k :: 0 <= k < |l1 + l2| ==> (l1 + l2)[k].Credit?
    ensures forall k :: 0 <= k < |n1 + n2| ==> (n1 + n2)[k].AllLanded?
  {
  }

  /** One `beforeUpdate` step: balls below the pyramid are dropped from the
      list without payout and without the final alert. */
  function Tick(s: Session, fallen: set<BallId>): (r: Step)
    ensures r.next.balance == s.balance && r.notices == [] && r.ledger == []
    ensures r.next.betAmount == s.betAmount && r.next.ballCount == s.ballCount
    ensures r.next.pending == s.pending && r.next.nextBall == s.nextBall
    ensures forall x :: x in s.activeBalls && x !in r.next.activeBalls ==> x in fallen
    ensures forall x :: x in s.activeBalls && x !in fallen ==> x in r.next.activeBalls
    ensures forall x :: x in r.next.activeBalls ==> x in s.activeBalls
    ensures r.next.activeBalls == InFlight.Survivors(s.activeBalls, fallen)
    ensures InFlight.NoneFallen(s.activeBalls, fallen) ==> r.next.activeBalls == s.activeBalls
    ensures Valid(s) ==> Valid(r.next)
  {
    InFlight.SurvivorsOfStanding(s.activeBalls, fallen);
    InFlight.SweepIsSound(s.activeBalls, fallen);
    InFlight.SweepMatchesSurvivors(s.activeBalls, fallen);
    Step(s.(activeBalls := InFlight.Sweep(s.activeBalls, fallen)), [], [])
  }

  /** The session side of `createGame`: the list of balls in flight is
      emptied (before any layout is attempted, so even for a height the
      layout rejects).  Spawns already scheduled are not cancelled. */
  function Regenerate(s: Session): (r: Step)
    ensures r.next.activeBalls == []
    ensures r.next.pending == s.pending && r.next.nextBall == s.nextBall
    ensures r.next.balance == s.balance && r.notices == [] && r.ledger == []
    ensures r.next.betAmount == s.betAmount && r.next.ballCount == s.ballCount
    ensures Valid(r.next)
  {
    Step(s.(activeBalls := []), [], [])
  }
}

=== FILE: Wrappers.dfy ===
/** Optional values and success-or-error results used by the layout generator and the session model. */
module Wrappers {

  /** An optional value. */
  datatype Option<+T> = None | Some(value: T)

  /** Either a computed value or the reason it could not be computed. */
  datatype Result<+R, +E> = Success(value: R) | Failure(error: E)
}
